=== FILE: README.md ===
# Aura X-Ray Scan front-end: a Dafny model of its logic

Aura X-Ray Scan is a browser front-end. A user uploads a chest X-ray, the
page sends it to a remote analysis API and then shows the returned
diagnosis next to a heatmap. A per-session consent dialog gates uploads.
Nearly all of the application is presentational React. This project models
the parts that make decisions:

- **Result normalisation and fallback** (`src/services/xray.service.ts`):
  - the conclusion-marker search;
  - the mapping of the backend's loosely typed JSON payload to an
    `AnalysisResult`;
  - the request wrapper that turns every failure into the built-in
    fallback result.
- **Endpoint and image-URL resolution** (`src/config/api.config.ts`,
  `src/components/xray-results/ImageDisplay.tsx`):
  - "stored URL if non-empty, else default" over the key-value store;
  - the availability probe;
  - the choice of which image to show and when to draw the client-side
    overlay.
- **The upload/consent screen state machine**:
  - `src/pages/Index.tsx`: the screen and the page's consent flag;
  - `src/components/ConsentModal.tsx`: the dialog and its session record;
  - `src/components/XrayHero.tsx`: the upload zone's gating, drag
    highlight and label.

Modelling choices:

- Browser storage (`localStorage`, `sessionStorage`) is a `map<string, string>`.
- The network is a function parameter `server: string -> HttpOutcome<T>`. It
  maps the requested URL to a response (status and body) or to a thrown error.
- A response body that fails to parse as JSON is `Malformed`.
- A payload field that may be missing is an `Option`.
- JavaScript's `v || fallback` on a nullable string is `Wrappers.OrElse`:
  missing and `""` both give the fallback.
- The thrown `TypeError` of `transformApiResponse` (missing or empty `details`)
  is `None`.
- Consent is `Option<bool>`, the source's `boolean | null`.
- `label` is a Dafny keyword, so the source's `label` fields are called
  `labelText`.
- The components come together in `IndexPage.App`:
  - the page state;
  - the page dialog's own consent;
  - the upload zone's drag state, reset whenever the page leaves the
    landing screen and the zone is unmounted;
  - the footer's consent dialog (`src/components/XrayFooter.tsx`), with its
    own open flag and consent;
  - the session store;
  - the object URLs of the uploads whose analysis has started. The browser
    makes a new URL for every upload, so a URL names one upload even when
    the same file is chosen twice.
- `IndexPage.Enabled` says which events the rendered page can produce:
  - Both dialogs are modal. While either is open, the upload zone, the
    footer's reset button and the footer's consent button take no input.
  - The upload zone takes input only on the landing screen.
  - An analysis is never cancelled, so its result may arrive at any later
    time.

A Dafny `string` is a sequence of Unicode scalar values, while JavaScript
indexes strings by UTF-16 code unit. The numbers returned by `indexOf` can
therefore differ: a diagnosis with an emoji outside the Basic Multilingual
Plane before the marker gives a code-unit index one larger per such
character. The chosen marker and the extracted suffix still agree. The map
from scalar index to code-unit index is strictly increasing, so "leftmost"
means the same in both. Every marker is made of Basic Multilingual Plane
characters, so no marker can start inside a surrogate pair. JavaScript
strings holding a lone surrogate have no Dafny counterpart and are not
modelled.

## Model

| member | source | states |
|---|---|---|
| `Wrappers.OrElse` | src/config/api.config.ts:10 | JavaScript's "or" fallback on a nullable string: a present non-empty value wins; a missing value or `""` yields the fallback |
| `Conclusion.IndexOf` | src/services/xray.service.ts:43 | `indexOf`: the result is an occurrence of the marker and no occurrence lies before it; None means the marker occurs nowhere |
| `Conclusion.IndexOfFrom` | src/services/xray.service.ts:43 | the leftmost occurrence at or after a start index, or None when there is none from there on |
| `Conclusion.MarkersNonEmpty` | src/services/xray.service.ts:24-36 | none of the eleven markers is empty |
| `Conclusion.Scan` | src/services/xray.service.ts:39-48 | the marker loop keeps the smallest index found: it never exceeds the initial best, it is the initial best or a marker occurrence, and no later-tried marker occurs before it |
| `Conclusion.ConclusionStart` | src/services/xray.service.ts:38-48 | the smallest index at which any marker occurs; None exactly when the text contains no marker |
| `Conclusion.ExtractConclusionText` | src/services/xray.service.ts:20-57 | `""` gives `""`; a text without a marker is returned unchanged; otherwise the result is the suffix starting at a marker with no marker earlier in the text |
| `Conclusion.ExtractStartsWithMarker` | src/services/xray.service.ts:50-53 | when the text has a marker, the extracted conclusion starts with one |
| `Conclusion.ExtractIdempotent` | src/services/xray.service.ts:20-57 | extracting from an extracted conclusion returns it unchanged |
| `Conclusion.ExtractIsNonEmptySuffix` | src/services/xray.service.ts:20-57 | for non-empty input the result is a non-empty suffix of the input |
| `Conclusion.StartsAtZero` | src/services/xray.service.ts:42-53 | a text that starts with a marker is its own conclusion |
| `Conclusion.StartAt` | src/services/xray.service.ts:38-53 | the first marked index is where the conclusion starts |
| `Conclusion.NewlineVariantWins` | src/services/xray.service.ts:24-53 | "\nЗаключение:" is found one character before "Заключение:", so the extracted conclusion keeps the line break in front of the marker |
| `XrayService.ToDataPoints` | src/services/xray.service.ts:72-75 | each detail entry maps, in order and one to one, to the data point with its label and confidence |
| `XrayService.TransformApiResponse` | src/services/xray.service.ts:60-81 | throws exactly when `details` is missing or empty. The abnormality flag is the negation of "first label is Норма and first confidence > 50". Top-level confidence is the first entry's. Data points mirror the details. The conclusion is never empty: it is the default text when the diagnosis is missing or empty, and the extracted conclusion otherwise. Details and URLs default to `""` |
| `XrayService.AbnormalityDependsOnFirstOnly` | src/services/xray.service.ts:63-76 | two payloads with the same first entry get the same flag and confidence, whatever the later entries |
| `XrayService.DataPointsRoundTrip` | src/services/xray.service.ts:72-75 | the detail entries can be recovered exactly from the data points |
| `XrayService.AnalyzeUrl` | src/services/xray.service.ts:85-92 | the analysis is posted to the configured base URL followed by `/upload`, read at call time |
| `XrayService.AnalyzeXrayImage` | src/services/xray.service.ts:84-115 | a 2xx response with parseable JSON and non-empty `details` gives the normalised payload; any thrown error, non-2xx status, malformed body or missing/empty `details` gives exactly the fallback result |
| `XrayService.AnalyzeAlwaysUsable` | src/services/xray.service.ts:84-115 | whatever the server does, the conclusion is non-empty, and the result is the fallback or the normalisation of a payload with details |
| `XrayService.MockResultShape` | src/services/xray.service.ts:6-17 | the fallback has confidence 94, no abnormality, four data points and no image URLs |
| `XrayService.NormalScenario` | src/services/xray.service.ts:60-81 | a "Норма" 94 entry with diagnosis "Заключение: норма" normalises to the expected non-abnormal result |
| `XrayService.PathologyScenario` | src/services/xray.service.ts:60-81 | a "Патология" 80 entry with an empty diagnosis is abnormal and gets the default conclusion |
| `XrayService.NormalNeedsMoreThanFifty` | src/services/xray.service.ts:63 | "Норма" at exactly 50 is flagged abnormal |
| `ApiConfig.GetApiConfig` | src/config/api.config.ts:8-19 | the base URL is the stored `xrayApiUrl` when non-empty and the default otherwise, never empty; the endpoints are `/upload` and `/` regardless of the store |
| `ApiConfig.SetApiUrl` | src/config/api.config.ts:22-24 | the URL key now holds the given URL, even an empty one; every other key is unchanged |
| `ApiConfig.GetAfterSet` | src/config/api.config.ts:8-24 | the next read after a write sees the written URL, or the default when it is empty |
| `ApiConfig.LastWriteWins` | src/config/api.config.ts:8-24 | after two writes the configuration equals that of the second write alone |
| `ApiConfig.ConfigOnlyReadsUrlKey` | src/config/api.config.ts:8-19 | stores that agree on the URL key give the same configuration |
| `ApiConfig.HealthUrl` | src/config/api.config.ts:29-30 | the probe requests the configured base URL followed by `/` |
| `ApiConfig.CheckApiAvailability` | src/config/api.config.ts:27-43 | true exactly when the probe's answer is a 2xx response; false for any other status and for any thrown error |
| `ApiConfig.ProbeFollowsSetUrl` | src/config/api.config.ts:22-30 | after setting a non-empty URL, the probe goes to that URL |
| `ImageDisplay.GetApiBaseUrl` | src/components/xray-results/ImageDisplay.tsx:8-11 | its own copy of the rule gives the same base URL as the configuration, never empty |
| `ImageDisplay.DisplayImageUrl` | src/components/xray-results/ImageDisplay.tsx:22-35 | heatmap on with a heatmap URL gives base + heatmap URL; heatmap off with an original URL gives base + original URL; otherwise the uploaded image |
| `ImageDisplay.HeatmapOnIgnoresOriginal` | src/components/xray-results/ImageDisplay.tsx:22-35 | with the heatmap on, changing the original URL never changes the displayed URL |
| `ImageDisplay.HeatmapOffIgnoresHeatmap` | src/components/xray-results/ImageDisplay.tsx:22-35 | with the heatmap off, changing the heatmap URL never changes the displayed URL |
| `ImageDisplay.Overlay` | src/components/xray-results/ImageDisplay.tsx:63-81 | the overlay is drawn exactly when the heatmap is on and there is no heatmap URL; it uses the alarm palette exactly when the result is abnormal |
| `ImageDisplay.OverlayOverUploadedImage` | src/components/xray-results/ImageDisplay.tsx:22-63 | whenever the overlay is drawn, the displayed image is the uploaded one |
| `ImageDisplay.OverlayDependsOnFlagAndHeatmap` | src/components/xray-results/ImageDisplay.tsx:63-81 | results agreeing on the flag and on heatmap presence get the same overlay |
| `ImageDisplay.FallbackInitialView` | src/components/xray-results/ImageDisplay.tsx:19-63 | the switch starts on, so the fallback result first shows the uploaded image under the calm overlay |
| `ConsentModal.StoredConsent` | src/components/ConsentModal.tsx:18-29 | "accepted" reads as true, "rejected" as false, and anything else, including a missing key, as undecided |
| `ConsentModal.StoredConsentRoundTrip` | src/components/ConsentModal.tsx:31-50 | writing a decision's word and reading it back gives the decision |
| `ConsentModal.OpenEffect` | src/components/ConsentModal.tsx:18-29 | when the open flag becomes true the dialog's consent is true exactly for a stored "accepted", false exactly for "rejected", and undecided for anything else; when it becomes false the dialog's consent is kept |
| `ConsentModal.OpenMirrorsStore` | src/components/ConsentModal.tsx:18-29 | an opened dialog reads the record exactly as the page's mount effect does (src/pages/Index.tsx:24-34), whatever it held before |
| `ConsentModal.OffersChoice` | src/components/ConsentModal.tsx:94-114 | the accept and reject buttons are shown exactly when the dialog's consent is undecided or refused |
| `ConsentModal.Accept` | src/components/ConsentModal.tsx:31-39 | writes "accepted", sets the dialog's consent to true and reports true |
| `ConsentModal.Reject` | src/components/ConsentModal.tsx:41-50 | writes "rejected", sets the dialog's consent to false and reports false |
| `ConsentModal.Dismiss` | src/components/ConsentModal.tsx:53 | writes nothing and reports true exactly when the dialog's consent is true |
| `ConsentModal.DismissUndecidedReportsRefusal` | src/components/ConsentModal.tsx:18-53 | dismissing on an undecided session reports false while the store stays undecided |
| `ConsentModal.ReopenAfterAccept` | src/components/ConsentModal.tsx:31-114 | after an acceptance a reopened dialog offers no buttons and a dismissal reports true |
| `ConsentModal.DismissReportsStoredAcceptance` | src/components/ConsentModal.tsx:18-53 | a freshly opened dialog reports true on dismissal exactly when the store says "accepted" |
| `XrayHero.ChooseFiles` | src/components/XrayHero.tsx:16-25 | no file: nothing; a refusal: the input is cleared and consent is requested; otherwise the first file is uploaded |
| `XrayHero.Drop` | src/components/XrayHero.tsx:27-39 | always ends the highlight; a refusal requests consent even with no files; otherwise the first dropped file, if any, is uploaded |
| `XrayHero.DragOver` | src/components/XrayHero.tsx:130-133 | the highlight is armed exactly when consent is not refused; a refusal leaves it as it was |
| `XrayHero.DragLeave` | src/components/XrayHero.tsx:134 | the highlight is off |
| `XrayHero.Click` | src/components/XrayHero.tsx:42-47 | a click requests consent exactly when consent is refused, and otherwise does nothing |
| `XrayHero.LabelText` | src/components/XrayHero.tsx:153-157 | the consent text exactly under a refusal; otherwise the release text exactly while highlighted; otherwise the upload text |
| `XrayHero.HeroStep` | src/components/XrayHero.tsx:16-134 | an upload only happens under a non-refused consent, from a choice or drop with at least one file, and uploads the first file; under a refusal the highlight never turns on |
| `XrayHero.RefusalBlocksUploads` | src/components/XrayHero.tsx:16-157 | under a refusal, no sequence of events uploads anything, arms the highlight or changes the label |
| `IndexPage.Mount` | src/pages/Index.tsx:24-34 | a stored decision sets the page's flag; an undecided session leaves the flag alone and opens the dialog |
| `IndexPage.HandleFileUpload` | src/pages/Index.tsx:36-50 | a refusal only opens the dialog; true or undecided consent moves to the analysing screen holding the file and its image URL |
| `IndexPage.HandleAnalysisComplete` | src/pages/Index.tsx:53-56 | as written: stores the result and shows the results screen whatever the current screen, touching nothing else |
| `IndexPage.HandleAnalysisCompleteFor` | src/pages/Index.tsx:53-56 | corrected: takes the result only while the page is analysing that same upload, named by its object URL; otherwise the page is unchanged |
| `IndexPage.HandleReset` | src/pages/Index.tsx:58-66 | back to landing with image, file and result cleared; the consent flag and dialog are unchanged |
| `IndexPage.HandleConsentModalClose` | src/pages/Index.tsx:68-71 | hides the dialog and sets the flag to the reported value; the screen and its data are unchanged |
| `IndexPage.HandleConsentRequired` | src/pages/Index.tsx:73-75 | opens the dialog and changes nothing else |
| `IndexPage.ActiveView` | src/pages/Index.tsx:100-121 | landing shows the upload zone. The analysis view shows exactly on the analysing screen with a non-empty image URL and a file; the results view exactly on the results screen with a non-empty image URL and a result. Otherwise nothing is rendered: JavaScript treats `""` as false |
| `IndexPage.ResetShowsHero` | src/pages/Index.tsx:58-106 | after a reset from any state the upload zone shows, with the same consent |
| `IndexPage.UploadShowsAnalysis` | src/pages/Index.tsx:36-114 | an admitted upload with a non-empty object URL renders the analysis view of that file; with an empty URL the main area is blank; a refused upload leaves the view as it was |
| `IndexPage.Start` | src/pages/Index.tsx:14-34 | the page starts on landing with the stored decision as its flag, and the dialog opens exactly when the session is undecided |
| `IndexPage.Enabled` | src/pages/Index.tsx:100-134 | upload-zone events come only while the upload zone is rendered, no dialog is open and the object URL is new and non-empty; each dialog's accept and reject only while it is open and offers them; a result only for an upload whose analysis was started; reset and the footer's consent button exactly while no dialog is open; each dialog's dismissal whenever it is open |
| `IndexPage.SyncDialog` | src/components/ConsentModal.tsx:18-29 | across a page update, a dialog that goes from closed to open shows the stored decision; otherwise the dialog's consent is unchanged |
| `IndexPage.Step` | src/pages/Index.tsx:36-134 | with the corrected completion handler: only the accept and reject buttons of the page's and the footer's dialogs write the session store; the analysing screen is entered only from an upload not refused by the page's flag, holding that upload's URL and a started file; started analyses are never forgotten; reset shows the upload zone |
| `IndexPage.HeroAfter` | src/pages/Index.tsx:100-106 | off the landing screen the upload zone is unmounted, so no drag highlight survives |
| `IndexPage.StepAsWritten` | src/pages/Index.tsx:53-56 | as written: any completion shows the results screen with that result, keeping the image and file, whatever was shown, and the unmounted upload zone loses its highlight; every other event is as in `IndexPage.Step` |
| `IndexPage.StartInv` | src/pages/Index.tsx:14-34 | the start state satisfies the page invariant |
| `IndexPage.StepInv` | src/pages/Index.tsx:36-75 | with the corrected completion handler, every event the page can produce preserves the invariant. Its view half: views have their data, with a non-empty image URL. Its consent half: an open dialog, the page's or the footer's, mirrors the store; the two are never open together; a closed page dialog means a decided flag; a true flag means "accepted" is stored. Off the landing screen the upload zone holds no highlight. A stored decision need not be the page's flag, because the footer's dialog writes the store without telling the page |
| `IndexPage.RunInv` | src/pages/Index.tsx:36-75 | with the corrected completion handler, the invariant holds after any sequence of events |
| `IndexPage.WrittenInvAsWritten` | src/pages/Index.tsx:36-75 | for the page as written, footer dialog included, every event it can produce keeps the consent half of the invariant and the fresh upload zone, and the analysing screen is entered only with "accepted" stored, writing nothing to the store |
| `IndexPage.RunWrittenInvAsWritten` | src/pages/Index.tsx:36-75 | for the page as written, footer dialog included, the consent half of the invariant and the fresh upload zone hold after any sequence of events; only the view half needs the corrected handler |
| `IndexPage.CloseFooterWith` | src/components/XrayFooter.tsx:12-14 | closing the footer's dialog keeps only what it wrote to the store; the page is untouched |
| `IndexPage.FooterAcceptanceNotAdopted` | src/components/XrayFooter.tsx:12-14 | after a refusal in the page's dialog, an acceptance in the footer's dialog is stored but the upload zone still refuses; clicking it reopens the page's dialog with no choice offered, and dismissing that adopts the stored acceptance |
| `IndexPage.NeverBlank` | src/pages/Index.tsx:100-121 | with the corrected completion handler, the main area is never blank, from any session and after any events |
| `IndexPage.AnalysisNeedsStoredAcceptance` | src/pages/Index.tsx:36-50 | the analysing screen is entered only when the session store records "accepted", whichever dialog wrote it, and entering it writes nothing to the store |
| `IndexPage.DismissUndecidedBlocks` | src/pages/Index.tsx:68-71 | dismissing the dialog on an undecided session sets the flag to false, blocking uploads, while the store stays undecided |
| `IndexPage.ResultBelongsToFile` | src/pages/Index.tsx:53-56 | with the corrected handler, results appear only out of the analysing screen for the upload the page holds, named by its object URL, showing that upload's image with the result |
| `IndexPage.LateResultAfterResetBlanks` | src/pages/Index.tsx:53-56 | as written, upload then reset then the late answer renders nothing; the corrected handler keeps the upload zone |
| `IndexPage.StaleResultShownWithNewImage` | src/pages/Index.tsx:53-56 | as written, the answer for an abandoned upload is shown with the next upload's image, even when both uploads are of the same file; the corrected handler keeps analysing |

## Left out

- The network exchange itself (`fetch`, `FormData`, the request headers)
  and the 60-second and 5-second timeouts. Each request is one call of the
  `server` parameter. A timeout is one of its thrown outcomes. The image
  bytes are not passed.
- `AnalyzeXrayImage`: reads the configuration outside the `try`. A store
  read that throws would escape. Storage here is a plain map, so that case
  does not exist in the model.
- Raw confidences are modelled as integers. For an integer `c`, `c || 0`
  is `c`. Missing or `NaN` confidences and labels are not modelled. Nor
  are payload fields of the wrong JSON type, such as a `details` that is
  not an array.
- `markerFound` in `extractConclusionText` is assigned but never read. The
  model keeps only the index.
- `URL.createObjectURL` is an event parameter (`objectUrl`).
  `IndexPage.Enabled` requires it to be non-empty and not used before, as
  every `blob:` URL the browser creates is. `IndexPage.UploadShowsAnalysis` still shows what an
  empty URL would render.
- `URL.revokeObjectURL` in the reset handler is not modelled, because it
  is browser resource management.
- Toasts, console logging, CSS classes, random decorative dots and lines,
  the hover state of the upload zone, and all animation timers.
- The PDF report (`src/services/report.service.ts`). It is DOM
  construction, rasterisation and floating-point page fitting. Its image
  URL choice is a variant of `ImageDisplay.DisplayImageUrl`.
- The progress animation of `src/components/XrayAnalysis.tsx`, which uses
  `Math.random` and intervals. Its catch-branch fallback is unreachable
  unless reading `localStorage` throws: `analyzeXrayImage` catches
  everything except its configuration read.
- The analysis component is abstracted in `IndexPage.Enabled` as "a result
  for a started upload may arrive at any later time".
- The footer's information panel toggle is presentational.
- Tab navigation, patient-name input, the details and diagnosis tabs, and
  the API configuration panel are presentational.
- `IndexPage.Enabled` assumes that an open modal dialog blocks input to the
  upload zone and to the footer's buttons. That is the dialog library's behaviour, not code of this
  repository. `IndexPage.HandleFileUpload` on its own still shows that an
  undecided flag does not block.

## Findings

| source | as written | input that shows it | evidently intended | confidence | as-written member | corrected member |
|---|---|---|---|---|---|---|
| src/pages/Index.tsx:53-56 | `handleAnalysisComplete` stores the result and switches to the results screen whatever the page shows. The analysis component never cancels its request (src/components/XrayAnalysis.tsx:79-82). | With consent "accepted": upload file f, press the footer's "Новый анализ" (reset) before the answer arrives, then the answer for f arrives. The page is on the results screen with no image, so the main area is blank. Alternatively upload g after the reset: g's image is then shown with f's result. | A result is applied only while the same upload is still being analysed. The main area is never blank, and a shown result belongs to the shown image. | medium; not executed | `IndexPage.LateResultAfterResetBlanks`, `IndexPage.StaleResultShownWithNewImage` (over `IndexPage.HandleAnalysisComplete`) | `IndexPage.HandleAnalysisCompleteFor`, used by `IndexPage.Step`; intended properties `IndexPage.NeverBlank` and `IndexPage.ResultBelongsToFile` |

=== FILE: api_config.dfy ===
/** Resolution of the backend's base URL and endpoints over the persistent
    key-value store, and the availability probe. */
module ApiConfig {
  import opened Wrappers
  import opened ApiTypes
  import opened Storage

  /** The store key holding a user-chosen base URL. */
  const ApiUrlKey := "xrayApiUrl"

  const DefaultApiUrl := "https://snikasipoin-api-xray-scan-ed4e.twc1.net"

  const AnalyzeEndpoint := "/upload"
  const HealthEndpoint := "/"

  /** A base URL has been stored and is non-empty. */
  predicate HasStoredUrl(store: Store) {
    ApiUrlKey in store && store[ApiUrlKey] != ""
  }

  /** `getApiConfig`: the stored URL when non-empty, else the default; the
      endpoints never depend on the store. */
  function GetApiConfig(store: Store): (c: ApiConfig)
    ensures HasStoredUrl(store) ==> c.baseUrl == store[ApiUrlKey]
    ensures !HasStoredUrl(store) ==> c.baseUrl == DefaultApiUrl
    ensures c.baseUrl != ""
    ensures c.endpoints == Endpoints("/upload", "/")
  {
    ApiConfig(OrElse(GetItem(store, ApiUrlKey), DefaultApiUrl), Endpoints(AnalyzeEndpoint, HealthEndpoint))
  }

  /** `setApiUrl`: writes the URL, even an empty one, and nothing else. */
  function SetApiUrl(store: Store, url: string): (r: Store)
    ensures ApiUrlKey in r && r[ApiUrlKey] == url
    ensures forall k :: k != ApiUrlKey ==> GetItem(r, k) == GetItem(store, k)
  {
    SetItem(store, ApiUrlKey, url)
  }

  /** The next configuration read after a write sees the written URL, or the
      default when the written URL is empty. */
  lemma GetAfterSet(store: Store, url: string)
    ensures GetApiConfig(SetApiUrl(store, url)).baseUrl == (if url != "" then url else DefaultApiUrl)
  {
  }

  /** Last write wins: an earlier write is invisible after a later one. */
  lemma LastWriteWins(store: Store, first: string, second: string)
    ensures GetApiConfig(SetApiUrl(SetApiUrl(store, first), second)) == GetApiConfig(SetApiUrl(store, second))
  {
  }

  /** The configuration depends on the store only through the URL key. */
  lemma ConfigOnlyReadsUrlKey(s: Store, t: Store)
    requires GetItem(s, ApiUrlKey) == GetItem(t, ApiUrlKey)
    ensures GetApiConfig(s) == GetApiConfig(t)
  {
  }

  /** The URL the probe requests. */
  function HealthUrl(store: Store): (url: string)
    ensures url == GetApiConfig(store).baseUrl + "/"
  {
    var config := GetApiConfig(store);
    config.baseUrl + config.endpoints.health
  }

  /** `checkApiAvailability`: `server` answers the GET to the given URL; the
      API is available exactly when that answer is a 2xx response. */
  function CheckApiAvailability(store: Store, server: string -> HttpOutcome<()>): (available: bool)
    ensures available <==> server(HealthUrl(store)).Responded? && IsOk(server(HealthUrl(store)).status)
  {
    match server(HealthUrl(store))
    case Responded(status, _) => IsOk(status)
    case Thrown => false
  }

  /** After the user sets a non-empty URL, the probe goes to that URL. */
  lemma ProbeFollowsSetUrl(store: Store, url: string)
    requires url != ""
    ensures HealthUrl(SetApiUrl(store, url)) == url + "/"
  {
  }
}

=== FILE: api_types.dfy ===
/** The shapes the front-end exchanges with the analysis backend and the
    browser: the canonical analysis result, the API configuration and the
    outcome of one HTTP exchange. */
module ApiTypes {
  import opened Wrappers

  /** One labelled percentage shown in the results view. */
  datatype DataPoint = DataPoint(labelText: string, percent: int)

  /** The canonical analysis result the screens display. The two URLs are
      optional: the built-in fallback result does not carry them. */
  datatype AnalysisResult = AnalysisResult(
    conclusion: string,
    details: string,
    confidence: int,
    dataPoints: seq<DataPoint>,
    hasAbnormality: bool,
    heatmapUrl: Option<string>,
    originalUrl: Option<string>)

  datatype Endpoints = Endpoints(analyze: string, health: string)

  datatype ApiConfig = ApiConfig(baseUrl: string, endpoints: Endpoints)

  /** An uploaded image file; its bytes are never inspected by the model. */
  datatype File = File(name: string)

  /** What one `fetch` call comes back with: a response with a status code and
      a body, or a thrown error (network failure, timeout, abort). */
  datatype HttpOutcome<T> = Responded(status: int, body: T) | Thrown

  /** `response.ok` of the Fetch standard: the status lies in 200..299. */
  predicate IsOk(status: int) {
    200 <= status <= 299
  }
}

=== FILE: conclusion.dfy ===
/** Extraction of the conclusion from the free-text diagnosis: the suffix of the
    text that starts at the leftmost occurrence of any conclusion marker. */
module Conclusion {
  import opened Wrappers

  /** The conclusion markers, in the order the search tries them. They are
      matched exactly and case-sensitively. */
  const Markers: seq<string> := [
    "Заключение:",
    "заключение:",
    "ЗАКЛЮЧЕНИЕ:",
    "### Заключение",
    "### ЗАКЛЮЧЕНИЕ",
    "**Заключение:**",
    "Заключение",
    "ЗАКЛЮЧЕНИЕ",
    "\n\n### Заключение",
    "\nЗаключение:",
    "\n\nЗаключение:"
  ]

  /** `m` occurs in `text` starting at index `i`. */
  predicate OccursAt(text: string, m: string, i: int) {
    0 <= i && i + |m| <= |text| && text[i..i + |m|] == m
  }

  /** No marker is the empty string. */
  lemma MarkersNonEmpty(j: nat)
    requires j < |Markers|
    ensures |Markers[j]| > 0
  {
  }

  /** Some marker at position `k` or later of the list occurs at index `i`. */
  predicate MarkerFromAt(text: string, k: nat, i: int) {
    exists j :: k <= j < |Markers| && OccursAt(text, Markers[j], i)
  }

  /** Some marker occurs at index `i`. */
  predicate MarkerAt(text: string, i: int) {
    MarkerFromAt(text, 0, i)
  }

  predicate HasMarker(text: string) {
    exists i :: 0 <= i < |text| && MarkerAt(text, i)
  }

  /** `text.indexOf(m, from)`: the leftmost occurrence of `m` at or after `from`. */
  function IndexOfFrom(text: string, m: string, from: nat): (r: Option<nat>)
    decreases |text| - from
    ensures r.Some? ==> from <= r.value && OccursAt(text, m, r.value)
    ensures forall i :: from <= i && (r.None? || i < r.value) ==> !OccursAt(text, m, i)
  {
    if from + |m| > |text| then None
    else if text[from..from + |m|] == m then Some(from)
    else IndexOfFrom(text, m, from + 1)
  }

  /** `text.indexOf(m)`, with -1 written as None. */
  function IndexOf(text: string, m: string): (r: Option<nat>)
    ensures r.Some? ==> OccursAt(text, m, r.value)
    ensures forall i :: 0 <= i && (r.None? || i < r.value) ==> !OccursAt(text, m, i)
  {
    IndexOfFrom(text, m, 0)
  }

  lemma MarkerFromAtSplit(text: string, k: nat, i: int)
    requires k < |Markers|
    ensures MarkerFromAt(text, k, i) <==> OccursAt(text, Markers[k], i) || MarkerFromAt(text, k + 1, i)
  {
    if MarkerFromAt(text, k, i) {
      var j :| k <= j < |Markers| && OccursAt(text, Markers[j], i);
      if j > k {
        assert MarkerFromAt(text, k + 1, i);
      }
    }
  }

  /** The marker loop: tries the markers from position `k` on, keeping in
      `best` the smallest index found so far. A later marker replaces `best`
      only when it occurs strictly earlier. */
  function Scan(text: string, k: nat, best: Option<nat>): (r: Option<nat>)
    requires k <= |Markers|
    decreases |Markers| - k
    ensures best.Some? ==> r.Some? && r.value <= best.value
    ensures r.Some? ==> r == best || MarkerFromAt(text, k, r.value)
    ensures r.None? ==> best.None? && forall i :: !MarkerFromAt(text, k, i)
    ensures r.Some? ==> forall i :: 0 <= i < r.value ==> !MarkerFromAt(text, k, i)
  {
    if k == |Markers| then best
    else
      var index := IndexOf(text, Markers[k]);
      var best' := if index.Some? && (best.None? || index.value < best.value) then index else best;
      var r := Scan(text, k + 1, best');
      assert forall i :: MarkerFromAt(text, k, i) <==> OccursAt(text, Markers[k], i) || MarkerFromAt(text, k + 1, i) by {
        forall i ensures MarkerFromAt(text, k, i) <==> OccursAt(text, Markers[k], i) || MarkerFromAt(text, k + 1, i) {
          MarkerFromAtSplit(text, k, i);
        }
      }
      r
  }

  /** The index at which the conclusion starts: the smallest index at which
      any marker occurs, or None when no marker occurs. */
  function ConclusionStart(text: string): (r: Option<nat>)
    ensures r.None? <==> !HasMarker(text)
    ensures r.Some? ==> MarkerAt(text, r.value)
    ensures r.Some? ==> forall i :: 0 <= i < r.value ==> !MarkerAt(text, i)
  {
    var r := Scan(text, 0, None);
    assert r.None? ==> forall i :: !MarkerAt(text, i);
    assert r.Some? ==> MarkerAt(text, r.value);
    r
  }

  /** `extractConclusionText`: the empty text gives the empty string; a text
      with a marker gives its suffix from the leftmost marker; any other text
      is returned unchanged. */
  function ExtractConclusionText(text: string): (r: string)
    ensures text == "" ==> r == ""
    ensures !HasMarker(text) ==> r == text
    ensures HasMarker(text) ==>
      var start := |text| - |r|;
      0 <= start && r == text[start..] && MarkerAt(text, start)
      && forall i :: 0 <= i < start ==> !MarkerAt(text, i)
  {
    if text == "" then ""
    else
      match ConclusionStart(text)
      case Some(start) => text[start..]
      case None => text
  }

  /** A marker occurring at `i` in `text` occurs at the start of `text[i..]`. */
  lemma MarkerAtSuffix(text: string, i: nat)
    requires i <= |text|
    requires MarkerAt(text, i)
    ensures MarkerAt(text[i..], 0)
  {
    var j :| 0 <= j < |Markers| && OccursAt(text, Markers[j], i);
    var m := Markers[j];
    assert text[i..][0..|m|] == text[i..i + |m|];
    assert OccursAt(text[i..], m, 0);
  }

  /** The extracted conclusion starts with a marker whenever the text has one. */
  lemma ExtractStartsWithMarker(text: string)
    requires HasMarker(text)
    ensures MarkerAt(ExtractConclusionText(text), 0)
  {
    var r := ExtractConclusionText(text);
    MarkerAtSuffix(text, |text| - |r|);
  }

  /** Extraction is idempotent: a conclusion already starts at its marker. */
  lemma {:induction false} ExtractIdempotent(text: string)
    ensures ExtractConclusionText(ExtractConclusionText(text)) == ExtractConclusionText(text)
  {
    var r := ExtractConclusionText(text);
    if HasMarker(text) {
      ExtractStartsWithMarker(text);
      assert HasMarker(r);
      var start := ConclusionStart(r);
      assert start.Some?;
      assert !(0 < start.value);
    }
  }

  /** Extraction never invents text: the result is empty only for the empty
      input, and otherwise is a non-empty suffix of the input. */
  lemma ExtractIsNonEmptySuffix(text: string)
    requires text != ""
    ensures var r := ExtractConclusionText(text);
      r != "" && |r| <= |text| && r == text[|text| - |r|..]
  {
    var r := ExtractConclusionText(text);
    if HasMarker(text) {
      ExtractStartsWithMarker(text);
      var j :| 0 <= j < |Markers| && OccursAt(r, Markers[j], 0);
      MarkersNonEmpty(j);
    } else {
      assert r == text;
    }
  }

  /** A marker found at index 0 is where the conclusion starts. */
  lemma {:induction false} StartsAtZero(text: string, j: nat)
    requires j < |Markers| && OccursAt(text, Markers[j], 0)
    ensures ExtractConclusionText(text) == text
  {
    assert MarkerAt(text, 0);
    var start := ConclusionStart(text);
    assert !(0 < start.value);
  }

  /** Every marker begins with one of five characters. */
  lemma MarkerHeads(j: nat)
    requires j < |Markers|
    ensures Markers[j][0] in {'З', 'з', '#', '*', '\n'}
  {
  }

  /** The example text of NewlineVariantWins. */
  const ExampleText := "Итог" + "\nЗаключение:" + " норма"

  lemma ExampleNoMarkerAt(i: nat, j: nat)
    requires i < 4 && j < |Markers|
    ensures !OccursAt(ExampleText, Markers[j], i)
  {
    assert ExampleText[i] == "Итог"[i];
    MarkerHeads(j);
    MarkersNonEmpty(j);
    assert ExampleText[i] != Markers[j][0];
  }

  lemma ExamplePrefixUnmarked(i: nat)
    requires i < 4
    ensures !MarkerAt(ExampleText, i)
  {
    forall j | 0 <= j < |Markers|
      ensures !OccursAt(ExampleText, Markers[j], i)
    {
      ExampleNoMarkerAt(i, j);
    }
  }

  /** The conclusion starts at the first marked index. */
  lemma StartAt(text: string, start: nat)
    requires MarkerAt(text, start)
    requires forall i | 0 <= i < start :: !MarkerAt(text, i)
    ensures ConclusionStart(text) == Some(start)
  {
  }

  /** The newline variants win over the plain marker they contain, because
      they occur one or two characters earlier: the conclusion then keeps the
      line breaks in front of the marker. */
  lemma NewlineVariantWins()
    ensures ExtractConclusionText(ExampleText) == "\nЗаключение:" + " норма"
  {
    var marker := "\nЗаключение:";
    assert marker == Markers[9];
    assert ExampleText[4..4 + |marker|] == marker;
    assert OccursAt(ExampleText, Markers[9], 4);
    forall i | 0 <= i < 4
      ensures !MarkerAt(ExampleText, i)
    {
      ExamplePrefixUnmarked(i);
    }
    StartAt(ExampleText, 4);
    assert ExampleText[4..] == marker + " норма";
  }
}

=== FILE: consent_modal.dfy ===
/** The data-processing consent dialog and the per-session consent record
    it reads and writes. Consent is tri-state: Some(true) accepted,
    Some(false) rejected, None not decided. */
module ConsentModal {
  import opened Wrappers
  import opened Storage

  /** The session-store key of the consent record. */
  const ConsentKey := "dataProcessingConsent"

  /** The stored word for a decision. */
  function ConsentWord(accepted: bool): string {
    if accepted then "accepted" else "rejected"
  }

  /** The consent recorded in the session store: "accepted", "rejected", or
      undecided for a missing key or any other value. */
  function StoredConsent(session: Store): (c: Option<bool>)
    ensures c == Some(true) <==> ConsentKey in session && session[ConsentKey] == "accepted"
    ensures c == Some(false) <==> ConsentKey in session && session[ConsentKey] == "rejected"
  {
    var saved := GetItem(session, ConsentKey);
    if saved == Some("accepted") then Some(true)
    else if saved == Some("rejected") then Some(false)
    else None
  }

  /** Writing a decision and reading it back gives the decision. */
  lemma StoredConsentRoundTrip(session: Store, accepted: bool)
    ensures StoredConsent(SetItem(session, ConsentKey, ConsentWord(accepted))) == Some(accepted)
  {
  }

  /** What closing the dialog leaves behind: the session store, the dialog's
      own consent, and the value passed to `onClose`. */
  datatype Closing = Closing(session: Store, local: Option<bool>, reported: bool)

  /** The `[isOpen]` effect, run each time the open flag changes: an opening
      re-reads the record from the store, so a decision taken elsewhere in the
      session shows; a closing keeps the dialog's consent as it was. */
  function OpenEffect(isOpen: bool, session: Store, local: Option<bool>): (r: Option<bool>)
    ensures !isOpen ==> r == local
    ensures isOpen ==> (r == Some(true) <==> GetItem(session, ConsentKey) == Some("accepted"))
    ensures isOpen ==> (r == Some(false) <==> GetItem(session, ConsentKey) == Some("rejected"))
    ensures isOpen ==> (r.None? <==>
      GetItem(session, ConsentKey) != Some("accepted") && GetItem(session, ConsentKey) != Some("rejected"))
  {
    if !isOpen then local
    else
      var saved := GetItem(session, ConsentKey);
      if saved == Some("accepted") then Some(true)
      else if saved == Some("rejected") then Some(false)
      else None
  }

  /** An opened dialog holds what the page reads at mount: the two read the
      same record the same way, whatever the dialog held before. */
  lemma OpenMirrorsStore(session: Store, local: Option<bool>)
    ensures OpenEffect(true, session, local) == StoredConsent(session)
  {
  }

  /** `handleAccept`: records "accepted" and reports true. */
  function Accept(session: Store): (c: Closing)
    ensures StoredConsent(c.session) == Some(true)
    ensures c.session == SetItem(session, ConsentKey, "accepted")
    ensures c.local == Some(true) && c.reported
  {
    Closing(SetItem(session, ConsentKey, ConsentWord(true)), Some(true), true)
  }

  /** `handleReject`: records "rejected" and reports false. */
  function Reject(session: Store): (c: Closing)
    ensures StoredConsent(c.session) == Some(false)
    ensures c.session == SetItem(session, ConsentKey, "rejected")
    ensures c.local == Some(false) && !c.reported
  {
    Closing(SetItem(session, ConsentKey, ConsentWord(false)), Some(false), false)
  }

  /** Dismissing the dialog (`onOpenChange`): reports whether the dialog's
      consent is exactly true and writes nothing. */
  function Dismiss(session: Store, local: Option<bool>): (c: Closing)
    ensures c.session == session && c.local == local
    ensures c.reported <==> local == Some(true)
  {
    Closing(session, local, local == Some(true))
  }

  /** The accept and reject buttons are offered unless consent is already
      given: both for a refusal and for an undecided dialog. */
  function OffersChoice(local: Option<bool>): (b: bool)
    ensures b <==> local == None || local == Some(false)
  {
    match local
    case None => true
    case Some(accepted) => !accepted
  }

  /** Dismissing a dialog opened on an undecided session reports a refusal
      while the session stays undecided. */
  lemma DismissUndecidedReportsRefusal(session: Store, local: Option<bool>)
    requires StoredConsent(session) == None
    ensures var c := Dismiss(session, OpenEffect(true, session, local));
      !c.reported && StoredConsent(c.session) == None
  {
  }

  /** After an acceptance, reopening the dialog offers no choice and a
      dismissal reports the acceptance again. */
  lemma ReopenAfterAccept(session: Store, local: Option<bool>)
    ensures var s := Accept(session).session;
      var d := OpenEffect(true, s, local);
      !OffersChoice(d) && Dismiss(s, d).reported
  {
  }

  /** Reopening the dialog always reports, on dismissal, the decision last
      made with it: the store and the report agree. */
  lemma DismissReportsStoredAcceptance(session: Store, local: Option<bool>)
    ensures Dismiss(session, OpenEffect(true, session, local)).reported <==> StoredConsent(session) == Some(true)
  {
  }
}

=== FILE: image_display.dfy ===
/** The results image: which URL is shown, and when the client-side heatmap
    overlay is drawn. */
module ImageDisplay {
  import opened Wrappers
  import opened ApiTypes
  import opened Storage
  import ApiConfig
  import XrayService

  /** `getApiBaseUrl`: the same "stored value if non-empty, else default"
      rule that the configuration applies. */
  function GetApiBaseUrl(store: Store): (base: string)
    ensures base == ApiConfig.GetApiConfig(store).baseUrl
    ensures base != ""
  {
    OrElse(GetItem(store, "xrayApiUrl"), "https://snikasipoin-api-xray-scan-ed4e.twc1.net")
  }

  /** The heatmap switch is on when the view first renders. */
  const InitialShowHeatmap := true

  /** A URL field that is present and non-empty (truthy). */
  predicate Present(url: Option<string>) {
    url.Some? && url.value != ""
  }

  /** `getDisplayImageUrl`. */
  function DisplayImageUrl(store: Store, showHeatmap: bool, imageUrl: string, result: AnalysisResult): (url: string)
    ensures showHeatmap && Present(result.heatmapUrl) ==> url == GetApiBaseUrl(store) + result.heatmapUrl.value
    ensures !showHeatmap && Present(result.originalUrl) ==> url == GetApiBaseUrl(store) + result.originalUrl.value
    ensures !(showHeatmap && Present(result.heatmapUrl)) && !(!showHeatmap && Present(result.originalUrl)) ==>
      url == imageUrl
  {
    if showHeatmap && Present(result.heatmapUrl) then GetApiBaseUrl(store) + result.heatmapUrl.value
    else if !showHeatmap && Present(result.originalUrl) then GetApiBaseUrl(store) + result.originalUrl.value
    else imageUrl
  }

  /** The two palettes of the client-side overlay. */
  datatype Tone = Alarm | Calm

  /** The client-side overlay: drawn only when the heatmap switch is on and the
      server sent no heatmap; its palette follows the pathology flag. */
  function Overlay(showHeatmap: bool, result: AnalysisResult): (o: Option<Tone>)
    ensures o.Some? <==> showHeatmap && !Present(result.heatmapUrl)
    ensures o.Some? ==> (o.value == Alarm <==> result.hasAbnormality)
  {
    if showHeatmap && !Present(result.heatmapUrl) then
      Some(if result.hasAbnormality then Alarm else Calm)
    else None
  }

  /** While the heatmap switch is on, the original-image URL plays no part. */
  lemma HeatmapOnIgnoresOriginal(store: Store, imageUrl: string, result: AnalysisResult, other: Option<string>)
    ensures DisplayImageUrl(store, true, imageUrl, result)
         == DisplayImageUrl(store, true, imageUrl, result.(originalUrl := other))
  {
  }

  /** While the heatmap switch is off, the heatmap URL plays no part. */
  lemma HeatmapOffIgnoresHeatmap(store: Store, imageUrl: string, result: AnalysisResult, other: Option<string>)
    ensures DisplayImageUrl(store, false, imageUrl, result)
         == DisplayImageUrl(store, false, imageUrl, result.(heatmapUrl := other))
  {
  }

  /** The overlay is only ever drawn over the uploaded image itself. */
  lemma OverlayOverUploadedImage(store: Store, showHeatmap: bool, imageUrl: string, result: AnalysisResult)
    requires Overlay(showHeatmap, result).Some?
    ensures DisplayImageUrl(store, showHeatmap, imageUrl, result) == imageUrl
  {
  }

  /** Two results that agree on the pathology flag and the heatmap URL get the
      same overlay: nothing else in the result influences it. */
  lemma OverlayDependsOnFlagAndHeatmap(showHeatmap: bool, a: AnalysisResult, b: AnalysisResult)
    requires a.hasAbnormality == b.hasAbnormality
    requires Present(a.heatmapUrl) == Present(b.heatmapUrl)
    ensures Overlay(showHeatmap, a) == Overlay(showHeatmap, b)
  {
  }

  /** The fallback result carries no server images, so the view first shows
      the uploaded image under the calm overlay. */
  lemma FallbackInitialView(store: Store, imageUrl: string)
    ensures DisplayImageUrl(store, InitialShowHeatmap, imageUrl, XrayService.MockResult) == imageUrl
    ensures Overlay(InitialShowHeatmap, XrayService.MockResult) == Some(Calm)
  {
  }
}

=== FILE: index_page.dfy ===
/** The page: which screen is shown, the upload and result it holds, and the
    consent flag that gates uploads. `App` puts the page together with its
    consent dialog, its upload zone and the session store. */
module IndexPage {
  import opened Wrappers
  import opened ApiTypes
  import opened Storage
  import ConsentModal
  import XrayHero

  datatype Screen = Landing | Analyzing | Results

  /** The page's state. `image` is the object URL made for the uploaded file. */
  datatype Page = Page(
    screen: Screen,
    image: Option<string>,
    file: Option<File>,
    result: Option<AnalysisResult>,
    showConsentModal: bool,
    consent: Option<bool>)

  /** The state of the first render, before the consent record is read. */
  const FirstRender := Page(Landing, None, None, None, false, None)

  /** The mount effect: a recorded decision sets the flag; an undecided
      session leaves it unset and opens the dialog. */
  function Mount(p: Page, session: Store): (q: Page)
    ensures ConsentModal.StoredConsent(session).Some? ==>
      q == p.(consent := ConsentModal.StoredConsent(session))
    ensures ConsentModal.StoredConsent(session).None? ==> q == p.(showConsentModal := true)
  {
    var saved := GetItem(session, ConsentModal.ConsentKey);
    if saved == Some("accepted") then p.(consent := Some(true))
    else if saved == Some("rejected") then p.(consent := Some(false))
    else p.(showConsentModal := true)
  }

  /** `handleFileUpload`: only an explicit refusal blocks; it opens the dialog
      and leaves everything else alone. */
  function HandleFileUpload(p: Page, file: File, objectUrl: string): (q: Page)
    ensures p.consent == Some(false) ==> q == p.(showConsentModal := true)
    ensures p.consent != Some(false) ==>
      q.screen == Analyzing && q.image == Some(objectUrl) && q.file == Some(file)
      && q.result == p.result && q.showConsentModal == p.showConsentModal && q.consent == p.consent
  {
    if p.consent == Some(false) then p.(showConsentModal := true)
    else p.(image := Some(objectUrl), file := Some(file), screen := Analyzing)
  }

  /** `handleAnalysisComplete`: stores the result and shows it, whatever the
      current screen. */
  function HandleAnalysisComplete(p: Page, result: AnalysisResult): (q: Page)
    ensures q.screen == Results && q.result == Some(result)
    ensures q.image == p.image && q.file == p.file
    ensures q.consent == p.consent && q.showConsentModal == p.showConsentModal
  {
    p.(result := Some(result), screen := Results)
  }

  /** The completion handler as it should be: an analysis's result is taken
      only while that same upload, named by its object URL, is still being
      analysed; a late result of an abandoned analysis is dropped. */
  function HandleAnalysisCompleteFor(p: Page, upload: string, result: AnalysisResult): (q: Page)
    ensures p.screen == Analyzing && p.image == Some(upload) ==>
      q.screen == Results && q.result == Some(result) && q.image == p.image && q.file == p.file
      && q.consent == p.consent && q.showConsentModal == p.showConsentModal
    ensures !(p.screen == Analyzing && p.image == Some(upload)) ==> q == p
  {
    if p.screen == Analyzing && p.image == Some(upload) then HandleAnalysisComplete(p, result) else p
  }

  /** `handleReset`: back to the landing screen with nothing held; the consent
      flag and the dialog are untouched. */
  function HandleReset(p: Page): (q: Page)
    ensures q.screen == Landing && q.image == None && q.file == None && q.result == None
    ensures q.consent == p.consent && q.showConsentModal == p.showConsentModal
  {
    p.(image := None, file := None, result := None, screen := Landing)
  }

  /** `handleConsentModalClose`: hides the dialog and adopts its report. */
  function HandleConsentModalClose(p: Page, accepted: bool): (q: Page)
    ensures !q.showConsentModal && q.consent == Some(accepted)
    ensures q.screen == p.screen && q.image == p.image && q.file == p.file && q.result == p.result
  {
    p.(showConsentModal := false, consent := Some(accepted))
  }

  /** `handleConsentRequired`. */
  function HandleConsentRequired(p: Page): (q: Page)
    ensures q.showConsentModal && q.(showConsentModal := p.showConsentModal) == p
  {
    p.(showConsentModal := true)
  }

  /** What the main area renders. */
  datatype View =
    | HeroView(consent: Option<bool>)
    | AnalysisView(image: string, file: File)
    | ResultsView(image: string, result: AnalysisResult)
    | Blank

  /** JavaScript truthiness of the held image URL: null and `""` are falsy. */
  predicate HasImage(p: Page) {
    p.image.Some? && p.image.value != ""
  }

  /** The main area: the analysis and results views need their data present
      and truthy (a file and a result are objects, so present means truthy;
      the image URL must also be non-empty); without it nothing is rendered. */
  function ActiveView(p: Page): (v: View)
    ensures v.HeroView? <==> p.screen == Landing
    ensures v.AnalysisView? <==> p.screen == Analyzing && p.image.Some? && p.image.value != "" && p.file.Some?
    ensures v.ResultsView? <==> p.screen == Results && p.image.Some? && p.image.value != "" && p.result.Some?
    ensures v.AnalysisView? ==> v == AnalysisView(p.image.value, p.file.value)
    ensures v.ResultsView? ==> v == ResultsView(p.image.value, p.result.value)
    ensures (v.AnalysisView? || v.ResultsView?) ==> v.image != ""
  {
    match p.screen
    case Landing => HeroView(p.consent)
    case Analyzing => if HasImage(p) && p.file.Some? then AnalysisView(p.image.value, p.file.value) else Blank
    case Results => if HasImage(p) && p.result.Some? then ResultsView(p.image.value, p.result.value) else Blank
  }

  /** Reset from any state lands on the upload zone with the same consent. */
  lemma ResetShowsHero(p: Page)
    ensures ActiveView(HandleReset(p)) == HeroView(p.consent)
  {
  }

  /** An admitted upload renders the analysis view of that very file, provided
      its object URL is non-empty (as every `blob:` URL is); with an empty URL
      the analysing screen renders nothing. A refused upload stays where it was. */
  lemma UploadShowsAnalysis(p: Page, file: File, objectUrl: string)
    ensures p.consent != Some(false) && objectUrl != "" ==>
      ActiveView(HandleFileUpload(p, file, objectUrl)) == AnalysisView(objectUrl, file)
    ensures p.consent != Some(false) && objectUrl == "" ==>
      ActiveView(HandleFileUpload(p, file, objectUrl)) == Blank
    ensures p.consent == Some(false) ==> ActiveView(HandleFileUpload(p, file, objectUrl)) == ActiveView(p)
  {
  }

  /** The whole page:
      - the page state and its dialog's own consent;
      - the upload zone's drag state;
      - the footer's consent dialog, which has its own open flag and consent;
      - the session store;
      - the object URLs of the uploads whose analysis has started. The
        browser makes a new URL for every upload, so a URL identifies one
        upload even when the same file is chosen twice. */
  datatype App = App(
    page: Page,
    dialog: Option<bool>,
    hero: XrayHero.Hero,
    footerOpen: bool,
    footerDialog: Option<bool>,
    session: Store,
    started: set<string>)

  /** The application as it stands once the mount effect has run. */
  function Start(session: Store): (a: App)
    ensures a.page.screen == Landing
    ensures a.page.consent == ConsentModal.StoredConsent(session)
    ensures a.page.showConsentModal <==> ConsentModal.StoredConsent(session).None?
    ensures !a.footerOpen && a.session == session && a.started == {}
  {
    App(Mount(FirstRender, session), None, XrayHero.InitialHero, false, None, session, {})
  }

  datatype Event =
    | OnHero(e: XrayHero.HeroEvent, objectUrl: string)
    | Completed(upload: string, result: AnalysisResult)
    | ResetPressed
    | AcceptPressed
    | RejectPressed
    | Dismissed
    | FooterConsentPressed
    | FooterAcceptPressed
    | FooterRejectPressed
    | FooterDismissed

  /** Whether either consent dialog is open; both are modal. */
  predicate Blocked(a: App) {
    a.page.showConsentModal || a.footerOpen
  }

  /** Which events the rendered page can produce.
      - Both dialogs are modal: while one is open, the upload zone, the
        footer's reset button and the footer's consent button take no input.
      - The upload zone exists only on the landing screen.
      - The browser's object URLs are `blob:` URLs: never empty, and new for
        every upload.
      - An analysis, once started, is never cancelled and may be restarted by
        re-renders, so a result for any upload ever started may arrive at
        any later time.
      - A dialog's buttons exist only while it is open and offers a choice;
        it can be dismissed whenever it is open. */
  function Enabled(a: App, e: Event): (b: bool)
    ensures b && e.OnHero? ==>
      ActiveView(a.page).HeroView? && !Blocked(a) && e.objectUrl != "" && e.objectUrl !in a.started
    ensures b && (e.AcceptPressed? || e.RejectPressed?) ==>
      a.page.showConsentModal && (a.dialog.None? || a.dialog == Some(false))
    ensures b && (e.FooterAcceptPressed? || e.FooterRejectPressed?) ==>
      a.footerOpen && (a.footerDialog.None? || a.footerDialog == Some(false))
    ensures b && e.Completed? ==> e.upload in a.started
    ensures b && (e.ResetPressed? || e.FooterConsentPressed?) ==> !a.page.showConsentModal && !a.footerOpen
    ensures (e.ResetPressed? || e.FooterConsentPressed?) && !Blocked(a) ==> b
    ensures (e.Dismissed? && a.page.showConsentModal) || (e.FooterDismissed? && a.footerOpen) ==> b
  {
    match e
    case OnHero(_, objectUrl) =>
      a.page.screen == Landing && !Blocked(a) && objectUrl != "" && objectUrl !in a.started
    case Completed(upload, _) => upload in a.started
    case ResetPressed => !Blocked(a)
    case AcceptPressed => a.page.showConsentModal && ConsentModal.OffersChoice(a.dialog)
    case RejectPressed => a.page.showConsentModal && ConsentModal.OffersChoice(a.dialog)
    case Dismissed => a.page.showConsentModal
    case FooterConsentPressed => !Blocked(a)
    case FooterAcceptPressed => a.footerOpen && ConsentModal.OffersChoice(a.footerDialog)
    case FooterRejectPressed => a.footerOpen && ConsentModal.OffersChoice(a.footerDialog)
    case FooterDismissed => a.footerOpen
  }

  /** Hands an upload-zone callback to the page. */
  function Deliver(p: Page, effect: XrayHero.Effect, objectUrl: string): Page {
    match effect
    case NoEffect => p
    case Upload(file) => HandleFileUpload(p, file, objectUrl)
    case ConsentRequired => HandleConsentRequired(p)
  }

  /** The dialog's `[isOpen]` effect across one page update: it runs only when
      the open flag changes, and an opening shows the stored decision. */
  function SyncDialog(before: Page, after: Page, dialog: Option<bool>, session: Store): (d: Option<bool>)
    ensures !before.showConsentModal && after.showConsentModal ==> d == ConsentModal.StoredConsent(session)
    ensures !(!before.showConsentModal && after.showConsentModal) ==> d == dialog
  {
    if before.showConsentModal != after.showConsentModal
    then ConsentModal.OpenEffect(after.showConsentModal, session, dialog)
    else dialog
  }

  /** The page's dialog closes and the page adopts its report. */
  function CloseWith(a: App, c: ConsentModal.Closing): App {
    a.(page := HandleConsentModalClose(a.page, c.reported), dialog := c.local, session := c.session)
  }

  /** The footer's dialog closes; its close handler discards the report, so
      only the store keeps the decision. */
  function CloseFooterWith(a: App, c: ConsentModal.Closing): (b: App)
    ensures !b.footerOpen && b.session == c.session && b.page == a.page
  {
    a.(footerOpen := false, footerDialog := c.local, session := c.session)
  }

  /** The upload zone is unmounted off the landing screen, so its drag state
      starts afresh when the page comes back. */
  function HeroAfter(page: Page, hero: XrayHero.Hero): (h: XrayHero.Hero)
    ensures page.screen != Landing ==> !h.dragOver
  {
    if page.screen == Landing then hero else XrayHero.InitialHero
  }

  /** One event, with the corrected completion handler. Only the accept and
      reject buttons of the two dialogs write the session store; analysing
      starts only from an upload the page's flag does not refuse, under a new
      object URL; the set of started analyses only grows. */
  function Step(a: App, e: Event): (b: App)
    ensures b.session != a.session ==>
      e.AcceptPressed? || e.RejectPressed? || e.FooterAcceptPressed? || e.FooterRejectPressed?
    ensures a.page.screen != Analyzing && b.page.screen == Analyzing ==>
      e.OnHero? && a.page.consent != Some(false) && b.page.image == Some(e.objectUrl)
      && e.objectUrl in b.started && b.page.file.Some?
    ensures a.started <= b.started
    ensures e.ResetPressed? ==> ActiveView(b.page) == HeroView(a.page.consent)
  {
    match e
    case OnHero(he, objectUrl) =>
      var (hero, effect) := XrayHero.HeroStep(a.page.consent, a.hero, he);
      var page := Deliver(a.page, effect, objectUrl);
      a.(page := page, dialog := SyncDialog(a.page, page, a.dialog, a.session),
         hero := HeroAfter(page, hero),
         started := if effect.Upload? && page.screen == Analyzing then a.started + {objectUrl} else a.started)
    case Completed(upload, result) =>
      var page := HandleAnalysisCompleteFor(a.page, upload, result);
      a.(page := page, hero := HeroAfter(page, a.hero))
    case ResetPressed => a.(page := HandleReset(a.page))
    case AcceptPressed => CloseWith(a, ConsentModal.Accept(a.session))
    case RejectPressed => CloseWith(a, ConsentModal.Reject(a.session))
    case Dismissed => CloseWith(a, ConsentModal.Dismiss(a.session, a.dialog))
    case FooterConsentPressed =>
      a.(footerOpen := true, footerDialog := ConsentModal.OpenEffect(true, a.session, a.footerDialog))
    case FooterAcceptPressed => CloseFooterWith(a, ConsentModal.Accept(a.session))
    case FooterRejectPressed => CloseFooterWith(a, ConsentModal.Reject(a.session))
    case FooterDismissed => CloseFooterWith(a, ConsentModal.Dismiss(a.session, a.footerDialog))
  }

  /** The view half of the invariant, which needs the corrected completion
      handler: a non-landing screen always has the data its view needs, with
      a non-empty image URL. */
  predicate ViewInv(a: App) {
    && (a.page.screen == Analyzing ==> HasImage(a.page) && a.page.file.Some?)
    && (a.page.screen == Results ==> HasImage(a.page) && a.page.result.Some?)
  }

  /** The consent half of the invariant, which holds for the page as written:
      - an open dialog, the page's or the footer's, shows the stored decision;
      - the two dialogs are never open together;
      - once the page's dialog is closed the page's flag is decided;
      - the page's flag says accepted only if the store does.
      A stored decision need not be the page's flag: the footer's dialog
      writes the store without telling the page. */
  predicate ConsentInv(a: App) {
    && (a.page.showConsentModal ==> a.dialog == ConsentModal.StoredConsent(a.session))
    && (a.footerOpen ==> a.footerDialog == ConsentModal.StoredConsent(a.session))
    && !(a.page.showConsentModal && a.footerOpen)
    && (!a.page.showConsentModal ==> a.page.consent.Some?)
    && (a.page.consent == Some(true) ==> ConsentModal.StoredConsent(a.session) == Some(true))
  }

  /** Off the landing screen the upload zone is unmounted, so it holds no
      drag highlight. */
  predicate HeroInv(a: App) {
    a.page.screen != Landing ==> a.hero == XrayHero.InitialHero
  }

  /** What holds for the page as written. */
  predicate WrittenInv(a: App) {
    ConsentInv(a) && HeroInv(a)
  }

  /** The invariant of every reachable state of the corrected page. */
  predicate Inv(a: App) {
    ViewInv(a) && WrittenInv(a)
  }

  lemma StartInv(session: Store)
    ensures Inv(Start(session))
  {
  }

  lemma StepInv(a: App, e: Event)
    requires Inv(a) && Enabled(a, e)
    ensures Inv(Step(a, e))
  {
    if e.OnHero? {
      var (hero, effect) := XrayHero.HeroStep(a.page.consent, a.hero, e.e);
      assert a.page.consent.Some?;
      if effect.Upload? {
        assert a.page.consent.value;
      }
    }
  }

  /** Runs the events in order; an event the page cannot produce in the
      current state is ignored. */
  function Run(a: App, es: seq<Event>): App
    decreases |es|
  {
    if |es| == 0 then a
    else Run(if Enabled(a, es[0]) then Step(a, es[0]) else a, es[1..])
  }

  lemma {:induction false} RunInv(a: App, es: seq<Event>)
    requires Inv(a)
    ensures Inv(Run(a, es))
    decreases |es|
  {
    if |es| > 0 {
      var next := if Enabled(a, es[0]) then Step(a, es[0]) else a;
      if Enabled(a, es[0]) {
        StepInv(a, es[0]);
      }
      RunInv(next, es[1..]);
    }
  }

  /** From any session, whatever the user does, the main area never renders
      blank. */
  lemma NeverBlank(session: Store, es: seq<Event>)
    ensures ActiveView(Run(Start(session), es).page) != Blank
  {
    StartInv(session);
    RunInv(Start(session), es);
  }

  /** An analysis only ever starts with an acceptance recorded in the session
      store: an acceptance in one of the dialogs is the only way past the
      gate. */
  lemma AnalysisNeedsStoredAcceptance(a: App, e: Event)
    requires Inv(a) && Enabled(a, e)
    requires a.page.screen != Analyzing && Step(a, e).page.screen == Analyzing
    ensures ConsentModal.StoredConsent(a.session) == Some(true)
    ensures Step(a, e).session == a.session
  {
    var (hero, effect) := XrayHero.HeroStep(a.page.consent, a.hero, e.e);
    assert effect.Upload?;
    assert a.page.consent.value;
  }

  /** Dismissing the dialog on an undecided session blocks uploads, though the
      session stays undecided. */
  lemma DismissUndecidedBlocks(session: Store)
    requires ConsentModal.StoredConsent(session).None?
    ensures var a := Step(Start(session), Dismissed);
      a.page.consent == Some(false) && ConsentModal.StoredConsent(a.session).None?
  {
  }

  /** An acceptance in the footer's dialog after a refusal in the page's
      reaches the store but not the page: the upload zone still refuses.
      Clicking it reopens the page's dialog, which now offers no choice, and
      dismissing that adopts the stored acceptance. */
  lemma FooterAcceptanceNotAdopted(f: File)
    ensures var a := Step(Step(Step(Start(map[]), RejectPressed), FooterConsentPressed), FooterAcceptPressed);
      && ConsentModal.StoredConsent(a.session) == Some(true)
      && a.page.consent == Some(false)
      && Step(a, OnHero(XrayHero.Choose([f]), "blob:1")).page.screen == Landing
      && var b := Step(a, OnHero(XrayHero.Clicked, "blob:1"));
         b.page.showConsentModal && !ConsentModal.OffersChoice(b.dialog)
         && Step(b, Dismissed).page.consent == Some(true)
  {
    var a := Step(Step(Step(Start(map[]), RejectPressed), FooterConsentPressed), FooterAcceptPressed);
    assert a.session == map[ConsentModal.ConsentKey := "accepted"];
  }

  /** A result reaches the results view only for the upload the page is
      analysing, identified by its object URL, and shows that upload's
      image. */
  lemma ResultBelongsToFile(a: App, upload: string, result: AnalysisResult)
    requires Inv(a)
    ensures var b := Step(a, Completed(upload, result));
      b.page.screen == Results && a.page.screen != Results ==>
        a.page.screen == Analyzing && a.page.image == Some(upload)
        && ActiveView(b.page) == ResultsView(upload, result)
  {
  }

  /** One event, with the completion handler as written: the result is taken
      whatever the page currently shows; every other event is as in `Step`. */
  function StepAsWritten(a: App, e: Event): (b: App)
    ensures e.Completed? ==>
      b.page.screen == Results && b.page.result == Some(e.result)
      && b.page.image == a.page.image && b.page.file == a.page.file && b.session == a.session
      && b.hero == XrayHero.InitialHero
    ensures !e.Completed? ==> b == Step(a, e)
  {
    match e
    case Completed(_, result) =>
      var page := HandleAnalysisComplete(a.page, result);
      a.(page := page, hero := HeroAfter(page, a.hero))
    case _ => Step(a, e)
  }

  function RunAsWritten(a: App, es: seq<Event>): App
    decreases |es|
  {
    if |es| == 0 then a
    else RunAsWritten(if Enabled(a, es[0]) then StepAsWritten(a, es[0]) else a, es[1..])
  }

  /** The consent gate does not depend on the completion handler: the page as
      written keeps the consent half of the invariant and the fresh upload
      zone on every event, and enters the analysing screen only with an
      acceptance stored. */
  lemma WrittenInvAsWritten(a: App, e: Event)
    requires WrittenInv(a) && Enabled(a, e)
    ensures WrittenInv(StepAsWritten(a, e))
    ensures a.page.screen != Analyzing && StepAsWritten(a, e).page.screen == Analyzing ==>
      ConsentModal.StoredConsent(a.session) == Some(true) && StepAsWritten(a, e).session == a.session
  {
    if e.OnHero? {
      var (hero, effect) := XrayHero.HeroStep(a.page.consent, a.hero, e.e);
      assert a.page.consent.Some?;
      if effect.Upload? {
        assert a.page.consent.value;
      }
    }
  }

  /** The consent half of the invariant and the fresh upload zone hold after
      any events of the page as written. */
  lemma {:induction false} RunWrittenInvAsWritten(a: App, es: seq<Event>)
    requires WrittenInv(a)
    ensures WrittenInv(RunAsWritten(a, es))
    decreases |es|
  {
    if |es| > 0 {
      if Enabled(a, es[0]) {
        WrittenInvAsWritten(a, es[0]);
      }
      RunWrittenInvAsWritten(if Enabled(a, es[0]) then StepAsWritten(a, es[0]) else a, es[1..]);
    }
  }

  /** As written, pressing reset before an upload's answer arrives ends on a
      results screen with no image: the main area renders nothing. */
  lemma LateResultAfterResetBlanks(f: File, result: AnalysisResult)
    ensures var session := map[ConsentModal.ConsentKey := "accepted"];
      var es := [OnHero(XrayHero.Choose([f]), "blob:1"), ResetPressed, Completed("blob:1", result)];
      ActiveView(RunAsWritten(Start(session), es).page) == Blank
      && ActiveView(Run(Start(session), es).page) == HeroView(Some(true))
  {
    var session := map[ConsentModal.ConsentKey := "accepted"];
    var a0 := Start(session);
    assert a0.page.consent == Some(true);
    var e1, e2, e3 := OnHero(XrayHero.Choose([f]), "blob:1"), ResetPressed, Completed("blob:1", result);
    var a1 := Step(a0, e1);
    assert a1.page.screen == Analyzing && "blob:1" in a1.started;
    var a2 := Step(a1, e2);
    assert Enabled(a0, e1) && Enabled(a1, e2) && Enabled(a2, e3);
    assert StepAsWritten(a0, e1) == a1 && StepAsWritten(a1, e2) == a2;
    assert [e1, e2, e3][1..] == [e2, e3] && [e2, e3][1..] == [e3] && [e3][1..] == [];
    assert RunAsWritten(a0, [e1, e2, e3]) == RunAsWritten(a1, [e2, e3]);
    assert RunAsWritten(a1, [e2, e3]) == RunAsWritten(a2, [e3]);
    assert RunAsWritten(a2, [e3]) == StepAsWritten(a2, e3);
    assert Run(a0, [e1, e2, e3]) == Run(a1, [e2, e3]);
    assert Run(a1, [e2, e3]) == Run(a2, [e3]);
    assert Run(a2, [e3]) == Step(a2, e3);
  }

  /** As written, the answer for an abandoned upload is shown next to the
      image of the next upload, even when both uploads are of the same file;
      the corrected page tells the uploads apart by their object URLs and
      keeps analysing. */
  lemma StaleResultShownWithNewImage(f: File, g: File, result: AnalysisResult)
    ensures var session := map[ConsentModal.ConsentKey := "accepted"];
      var es := [OnHero(XrayHero.Choose([f]), "blob:1"), ResetPressed,
                 OnHero(XrayHero.Choose([g]), "blob:2"), Completed("blob:1", result)];
      var b := RunAsWritten(Start(session), es).page;
      ActiveView(b) == ResultsView("blob:2", result) && b.file == Some(g)
      && Run(Start(session), es).page.screen == Analyzing
  {
    var session := map[ConsentModal.ConsentKey := "accepted"];
    var a0 := Start(session);
    assert a0.page.consent == Some(true);
    var e1, e2, e3, e4 := OnHero(XrayHero.Choose([f]), "blob:1"), ResetPressed,
                          OnHero(XrayHero.Choose([g]), "blob:2"), Completed("blob:1", result);
    var a1 := Step(a0, e1);
    var a2 := Step(a1, e2);
    var a3 := Step(a2, e3);
    assert a3.page.screen == Analyzing && a3.page.file == Some(g) && "blob:1" in a3.started;
    assert Enabled(a0, e1) && Enabled(a1, e2) && Enabled(a2, e3) && Enabled(a3, e4);
    assert StepAsWritten(a0, e1) == a1 && StepAsWritten(a1, e2) == a2 && StepAsWritten(a2, e3) == a3;
    assert [e1, e2, e3, e4][1..] == [e2, e3, e4] && [e2, e3, e4][1..] == [e3, e4] && [e3, e4][1..] == [e4];
    assert [e4][1..] == [];
    assert RunAsWritten(a0, [e1, e2, e3, e4]) == RunAsWritten(a1, [e2, e3, e4]);
    assert RunAsWritten(a1, [e2, e3, e4]) == RunAsWritten(a2, [e3, e4]);
    assert RunAsWritten(a2, [e3, e4]) == RunAsWritten(a3, [e4]);
    assert RunAsWritten(a3, [e4]) == StepAsWritten(a3, e4);
    assert Run(a0, [e1, e2, e3, e4]) == Run(a1, [e2, e3, e4]);
    assert Run(a1, [e2, e3, e4]) == Run(a2, [e3, e4]);
    assert Run(a2, [e3, e4]) == Run(a3, [e4]);
    assert Run(a3, [e4]) == Step(a3, e4);
  }
}

=== FILE: storage.dfy ===
/** The browser's `localStorage` / `sessionStorage` as an in-memory map from
    keys to strings. `getItem` of a missing key is `null`. */
module Storage {
  import opened Wrappers

  type Store = map<string, string>

  function GetItem(store: Store, key: string): (r: Option<string>)
    ensures r.Some? <==> key in store
    ensures r.Some? ==> r.value == store[key]
  {
    if key in store then Some(store[key]) else None
  }

  /** `setItem`: the key now holds `value`; every other key is untouched. */
  function SetItem(store: Store, key: string, value: string): (r: Store)
    ensures r.Keys == store.Keys + {key}
    ensures GetItem(r, key) == Some(value)
    ensures forall k :: k != key ==> GetItem(r, k) == GetItem(store, k)
  {
    store[key := value]
  }
}

=== FILE: wrappers.dfy ===
/** Small value types shared by the whole model: JavaScript's `null`/`undefined`
    as an Option, and the `value || fallback` idiom on nullable strings. */
module Wrappers {

  /** A value that may be absent (`null` or `undefined` in the source). */
  datatype Option<+T> = None | Some(value: T)

  /** JavaScript `v || fallback` for a nullable string: an absent value and the
      empty string are both falsy, so either one yields `fallback`. */
  function OrElse(v: Option<string>, fallback: string): (r: string)
    ensures v.Some? && v.value != "" ==> r == v.value
    ensures v == None || v == Some("") ==> r == fallback
    ensures r == "" ==> fallback == ""
  {
    match v
    case Some(s) => if s != "" then s else fallback
    case None => fallback
  }
}

=== FILE: xray_hero.dfy ===
/** The landing screen's upload zone: gating of file choice and drop on
    consent, the drag highlight and the label text. Consent is tri-state as
    in the dialog; only an explicit refusal, Some(false), blocks. */
module XrayHero {
  import opened Wrappers
  import opened ApiTypes

  /** The callback a handler invokes, if any. */
  datatype Effect = NoEffect | Upload(file: File) | ConsentRequired

  /** The upload zone's own state. */
  datatype Hero = Hero(dragOver: bool)

  const InitialHero := Hero(false)

  predicate Refused(consent: Option<bool>) {
    consent == Some(false)
  }

  /** What the file input's change handler does: the callback it invokes and
      whether it clears the input. */
  datatype Choice = Choice(effect: Effect, clearInput: bool)

  /** `handleFileUpload`: with no file chosen nothing happens; a refusal clears
      the input and asks for consent; otherwise the first file is uploaded. */
  function ChooseFiles(consent: Option<bool>, files: seq<File>): (c: Choice)
    ensures |files| == 0 ==> c == Choice(NoEffect, false)
    ensures |files| > 0 && Refused(consent) ==> c == Choice(ConsentRequired, true)
    ensures |files| > 0 && !Refused(consent) ==> c == Choice(Upload(files[0]), false)
  {
    if |files| == 0 then Choice(NoEffect, false)
    else if Refused(consent) then Choice(ConsentRequired, true)
    else Choice(Upload(files[0]), false)
  }

  /** `handleDrop`: always ends the drag highlight; a refusal asks for consent
      even when nothing was dropped; otherwise the first dropped file, if any,
      is uploaded. */
  function Drop(consent: Option<bool>, files: seq<File>): (r: (Hero, Effect))
    ensures !r.0.dragOver
    ensures Refused(consent) ==> r.1 == ConsentRequired
    ensures !Refused(consent) && |files| > 0 ==> r.1 == Upload(files[0])
    ensures !Refused(consent) && |files| == 0 ==> r.1 == NoEffect
  {
    (Hero(false), if Refused(consent) then ConsentRequired
                  else if |files| > 0 then Upload(files[0])
                  else NoEffect)
  }

  /** `onDragOver`: arms the highlight unless consent was refused. */
  function DragOver(consent: Option<bool>, h: Hero): (r: Hero)
    ensures r.dragOver <==> !Refused(consent) || h.dragOver
  {
    if !Refused(consent) then Hero(true) else h
  }

  /** `onDragLeave`. */
  function DragLeave(h: Hero): (r: Hero)
    ensures !r.dragOver
  {
    Hero(false)
  }

  /** `handleConsentCheck`, the click handler of a refused upload zone. */
  function Click(consent: Option<bool>): (e: Effect)
    ensures e == ConsentRequired <==> Refused(consent)
    ensures e != ConsentRequired ==> e == NoEffect
  {
    if Refused(consent) then ConsentRequired else NoEffect
  }

  const ConsentRequiredText := "Требуется согласие на обработку данных"
  const ReleaseText := "Отпустите для загрузки"
  const UploadText := "Загрузить рентген"

  /** The label text, by priority: refusal, then drag highlight, then idle. */
  function LabelText(consent: Option<bool>, h: Hero): (t: string)
    ensures t == ConsentRequiredText <==> Refused(consent)
    ensures t == ReleaseText <==> !Refused(consent) && h.dragOver
    ensures t == UploadText <==> !Refused(consent) && !h.dragOver
  {
    if Refused(consent) then ConsentRequiredText
    else if h.dragOver then ReleaseText
    else UploadText
  }

  /** An upload-zone event. */
  datatype HeroEvent = Choose(files: seq<File>) | Dropped(files: seq<File>) | Over | Leave | Clicked

  /** One event on the upload zone: the new zone state and the callback. */
  function HeroStep(consent: Option<bool>, h: Hero, e: HeroEvent): (r: (Hero, Effect))
    ensures r.1.Upload? ==> !Refused(consent) && (e.Choose? || e.Dropped?) && |e.files| > 0 && r.1.file == e.files[0]
    ensures Refused(consent) && !h.dragOver ==> !r.0.dragOver
  {
    match e
    case Choose(files) => (h, ChooseFiles(consent, files).effect)
    case Dropped(files) => Drop(consent, files)
    case Over => (DragOver(consent, h), NoEffect)
    case Leave => (DragLeave(h), NoEffect)
    case Clicked => (h, Click(consent))
  }

  /** Runs a sequence of events and collects the callbacks invoked. */
  function HeroRun(consent: Option<bool>, h: Hero, es: seq<HeroEvent>): (Hero, seq<Effect>)
    decreases |es|
  {
    if |es| == 0 then (h, [])
    else
      var (h', e) := HeroStep(consent, h, es[0]);
      var (h'', effects) := HeroRun(consent, h', es[1..]);
      (h'', [e] + effects)
  }

  /** Under a refusal, no sequence of events ever uploads a file, and a zone
      that starts without highlight never shows the release text. */
  lemma {:induction false} RefusalBlocksUploads(h: Hero, es: seq<HeroEvent>)
    requires !h.dragOver
    ensures var (h', effects) := HeroRun(Some(false), h, es);
      && !h'.dragOver
      && LabelText(Some(false), h') == ConsentRequiredText
      && forall i :: 0 <= i < |effects| ==> !effects[i].Upload?
    decreases |es|
  {
    if |es| > 0 {
      RefusalBlocksUploads(HeroStep(Some(false), h, es[0]).0, es[1..]);
    }
  }
}

=== FILE: xray_service.dfy ===
/** The analysis service: normalisation of the backend's loosely typed
    payload into an AnalysisResult, and the request wrapper that turns every
    failure into the built-in fallback result. */
module XrayService {
  import opened Wrappers
  import opened ApiTypes
  import Storage
  import ApiConfig
  import Conclusion

  /** One entry of the payload's `details` array. */
  datatype RawDetail = RawDetail(labelText: string, confidence: int)

  /** The backend's JSON payload; every field may be missing. */
  datatype Payload = Payload(
    details: Option<seq<RawDetail>>,
    gptDiagnosis: Option<string>,
    interpretation: Option<string>,
    heatmapUrl: Option<string>,
    originalUrl: Option<string>)

  /** A response body: valid JSON of the payload's shape, or a body whose
      parsing throws. */
  datatype Body = Json(payload: Payload) | Malformed

  /** The label of a first detail entry that marks the image as normal. */
  const NormalLabel := "Норма"

  /** The conclusion used when the diagnosis yields no text. */
  const DefaultConclusion := "Заключение: Анализ завершен"

  /** The result returned whenever the analysis request fails. */
  const MockResult := AnalysisResult(
    "Заключение: Значимых патологических изменений не выявлено.",
    "Сердечный контур нормальных размеров. Легочные поля без очаговых теней, пневмоторакса или плеврального выпота. Острых костных аномалий не выявлено.",
    94,
    [ DataPoint("Чистые легкие", 96),
      DataPoint("Нормальный размер сердца", 92),
      DataPoint("Отсутствие выпота", 97),
      DataPoint("Отсутствие пневмоторакса", 98) ],
    false,
    None,
    None)

  /** The payload carries a non-empty `details` array, so reading
      `details[0].label` does not throw. */
  predicate HasDetails(p: Payload) {
    p.details.Some? && |p.details.value| > 0
  }

  function ToDataPoint(d: RawDetail): DataPoint {
    DataPoint(d.labelText, d.confidence)
  }

  function ToDataPoints(ds: seq<RawDetail>): (r: seq<DataPoint>)
    ensures |r| == |ds|
    ensures forall i :: 0 <= i < |ds| ==> r[i] == DataPoint(ds[i].labelText, ds[i].confidence)
  {
    seq(|ds|, i requires 0 <= i < |ds| => ToDataPoint(ds[i]))
  }

  /** `transformApiResponse`. None stands for the TypeError raised when
      `details` is missing or empty. */
  function TransformApiResponse(p: Payload): (r: Option<AnalysisResult>)
    ensures r.None? <==> !HasDetails(p)
    ensures r.Some? ==> var first := p.details.value[0];
      && (r.value.hasAbnormality <==> !(first.labelText == NormalLabel && first.confidence > 50))
      && r.value.confidence == first.confidence
    ensures r.Some? ==>
      && |r.value.dataPoints| == |p.details.value|
      && forall i :: 0 <= i < |p.details.value| ==>
           r.value.dataPoints[i] == DataPoint(p.details.value[i].labelText, p.details.value[i].confidence)
    ensures r.Some? ==> r.value.conclusion != ""
    ensures r.Some? && (p.gptDiagnosis == None || p.gptDiagnosis == Some("")) ==>
      r.value.conclusion == DefaultConclusion
    ensures r.Some? && p.gptDiagnosis.Some? && p.gptDiagnosis.value != "" ==>
      r.value.conclusion == Conclusion.ExtractConclusionText(p.gptDiagnosis.value)
    ensures r.Some? ==>
      && r.value.details == OrElse(p.interpretation, "")
      && r.value.heatmapUrl == Some(OrElse(p.heatmapUrl, ""))
      && r.value.originalUrl == Some(OrElse(p.originalUrl, ""))
  {
    if !HasDetails(p) then None
    else
      var details := p.details.value;
      var isNormal := details[0].labelText == NormalLabel && details[0].confidence > 50;
      var conclusionText := Conclusion.ExtractConclusionText(OrElse(p.gptDiagnosis, ""));
      Some(AnalysisResult(
        if conclusionText != "" then conclusionText else DefaultConclusion,
        OrElse(p.interpretation, ""),
        details[0].confidence,
        ToDataPoints(details),
        !isNormal,
        Some(OrElse(p.heatmapUrl, "")),
        Some(OrElse(p.originalUrl, ""))))
  }

  /** The request URL of an analysis: read from the store at call time. */
  function AnalyzeUrl(store: Storage.Store): (url: string)
    ensures url == ApiConfig.GetApiConfig(store).baseUrl + "/upload"
  {
    var config := ApiConfig.GetApiConfig(store);
    config.baseUrl + config.endpoints.analyze
  }

  /** `analyzeXrayImage`: `server` answers the POST to the given URL. Every
      failure (thrown error, non-2xx status, unparseable body, missing or
      empty `details`) yields MockResult. */
  function AnalyzeXrayImage(store: Storage.Store, server: string -> HttpOutcome<Body>): (r: AnalysisResult)
    ensures var o := server(AnalyzeUrl(store));
      if o.Responded? && IsOk(o.status) && o.body.Json? && HasDetails(o.body.payload)
      then Some(r) == TransformApiResponse(o.body.payload)
      else r == MockResult
  {
    match server(AnalyzeUrl(store))
    case Thrown => MockResult
    case Responded(status, body) =>
      if !IsOk(status) then MockResult
      else match body
        case Malformed => MockResult
        case Json(payload) =>
          match TransformApiResponse(payload)
          case Some(result) => result
          case None => MockResult
  }

  /** Later detail entries never influence the pathology flag or the top-level
      confidence: only the first entry does. */
  lemma AbnormalityDependsOnFirstOnly(p: Payload, q: Payload)
    requires HasDetails(p) && HasDetails(q)
    requires p.details.value[0] == q.details.value[0]
    ensures TransformApiResponse(p).value.hasAbnormality == TransformApiResponse(q).value.hasAbnormality
    ensures TransformApiResponse(p).value.confidence == TransformApiResponse(q).value.confidence
  {
  }

  /** The detail entries can be read back from the data points: the mapping
      loses nothing and keeps the order. */
  function FromDataPoints(ps: seq<DataPoint>): (r: seq<RawDetail>)
    ensures |r| == |ps|
  {
    seq(|ps|, i requires 0 <= i < |ps| => RawDetail(ps[i].labelText, ps[i].percent))
  }

  lemma DataPointsRoundTrip(p: Payload)
    requires HasDetails(p)
    ensures FromDataPoints(TransformApiResponse(p).value.dataPoints) == p.details.value
  {
  }

  /** Whatever the server does, the screen gets a result with a non-empty
      conclusion; the fallback is never flagged as abnormal. */
  lemma AnalyzeAlwaysUsable(store: Storage.Store, server: string -> HttpOutcome<Body>)
    ensures AnalyzeXrayImage(store, server).conclusion != ""
    ensures AnalyzeXrayImage(store, server) == MockResult ||
      var o := server(AnalyzeUrl(store));
      o.Responded? && o.body.Json? && HasDetails(o.body.payload)
      && |AnalyzeXrayImage(store, server).dataPoints| == |o.body.payload.details.value|
  {
  }

  /** The fallback result: confidence 94, no abnormality, four data points. */
  lemma MockResultShape()
    ensures MockResult.confidence == 94 && !MockResult.hasAbnormality
    ensures |MockResult.dataPoints| == 4
    ensures MockResult.heatmapUrl == None && MockResult.originalUrl == None
  {
  }

  /** A normal first entry above 50 percent, with a diagnosis that starts at
      its marker. */
  lemma NormalScenario()
    ensures TransformApiResponse(Payload(Some([RawDetail("Норма", 94)]), Some("Заключение: норма"), Some("ok"), Some(""), Some("")))
         == Some(AnalysisResult("Заключение: норма", "ok", 94, [DataPoint("Норма", 94)], false, Some(""), Some("")))
  {
    var text := "Заключение: норма";
    assert text == Conclusion.Markers[0] + " норма";
    assert text[0..|Conclusion.Markers[0]|] == Conclusion.Markers[0];
    Conclusion.StartsAtZero(text, 0);
    var ds := [RawDetail("Норма", 94)];
    assert ToDataPoints(ds) == [DataPoint("Норма", 94)];
  }

  /** A pathological first entry with an empty diagnosis. */
  lemma PathologyScenario()
    ensures var r := TransformApiResponse(Payload(Some([RawDetail("Патология", 80)]), Some(""), None, None, None));
      r.Some? && r.value.hasAbnormality && r.value.conclusion == DefaultConclusion && r.value.confidence == 80
  {
  }

  /** "Норма" at exactly 50 percent is not enough for a normal result. */
  lemma NormalNeedsMoreThanFifty()
    ensures TransformApiResponse(Payload(Some([RawDetail("Норма", 50)]), None, None, None, None)).value.hasAbnormality
  {
  }
}
